=== FILE: README.md ===
# Report CSV export and filter form, modelled in Dafny

This project models two pieces of a React front end for browsing reports.

**The CSV export utility (`src/lib/csvExport.js`)** has three parts:

- `convertToCSV` turns an array of records into CSV text. The header list is the one given, or else the first record's keys. It writes a header line, then one line per record with one field per header. A field whose string form contains `"`, `,` or a line feed is put in double quotes, with each inner `"` doubled. Lines are joined with a line feed and there is no trailing newline.
- `exportAsCSV` wraps this. Data that is not an array, or is empty, raises a notice and stops. Otherwise it names the file `<base>-<YYYY-MM-DD>.csv`, serialises the data and downloads the file.
- `formatReportsForCSV` renames each report's fields to the display columns of `REPORTS_CSV_HEADERS` and cuts the two timestamps to their date.

**The filter form (`src/components/FiltersForm.jsx`)** holds a six-field filter record. Its parts:

- how the starting record is built from the `initialFilters` prop;
- the change, submit and reset handlers;
- the auto-submit that fires when the debounced search term changes;
- the "export CSV" action, which derives a sort order and fetches the rows, then exports them with a fixed header list.

The model follows the code where the code departs from RFC 4180 or from its own comments:

- Lines end in LF, not CRLF.
- A carriage return does not trigger quoting (`CsvExport.CarriageReturnNotQuoted`).
- The empty-value guard of `convertToCSV` tests `val === undefined && val === null`, which can never hold. So a missing key or an `undefined` value is written as the text `undefined`, and `null` as `null` (`CsvExport.MissingAndNullValues`).
- The "No data to export" error that `exportAsCSV` throws after serialising can never be reached (`CsvExport.ExportDownloadsOnce`).
- In the filter form, the `|| ''` defaults of the initial record never decide anything, because the spread of `initialFilters` that follows them overrides every property it has (`FiltersForm.InitialIsBlankOverridden`).

Files:

- `wrappers.dfy`: `Option` and `Result`.
- `js_values.dfy` (module `JsValues`): the JavaScript value semantics the code relies on:
  - primitive values and `String(v)`;
  - truthiness;
  - plain objects as ordered key/value lists with unique keys;
  - property lookup and `Object.keys`;
  - `Array.prototype.join`;
  - `s.split(c)[0]`.
- `csv_export.dfy` (module `CsvExport`): `convertToCSV` as a loop that grows the list of lines, proved against the function `CsvText`. Also `exportAsCSV` and `formatReportsForCSV`, with their properties.
- `csv_reader.dfy` (module `CsvReader`): an independent CSV reader. It is a character-by-character state machine with three modes: outside quotes, inside quotes, and just after a quote. The round trip of the serialiser is proved against this reader.
- `filters_form.dfy` (module `FiltersForm`): the filter-form handlers as functions from the current record to the next record and the record passed to `onSubmit`. Also the auto-submit over a sequence of renders, and the export action.

## Model

The contracts below are stated in terms of these definitions, which carry the source's semantics and need no row of their own:

- `JsValues.Truthy` is JavaScript's ToBoolean, which `|| ''` and `!!` test.
- `FiltersForm.OrBlank` is `x || ''`.
- `FiltersForm.EffectRuns` is the `[debounceVal]` dependency rule of `useEffect`: the effect runs after the first render and after every render whose debounced value differs from the one before.
- `CsvExport.CsvText` is the text `convertToCSV` returns, or the error it throws.
- `CsvExport.Exporting` is the outcome and effects of `exportAsCSV`.

| member | source | states |
|---|---|---|
| JsValues.Lookup | src/lib/csvExport.js:47 | `item[header]` is the value bound to that key, and `undefined` when the record has no such key |
| JsValues.Keys | src/lib/csvExport.js:33 | `Object.keys` lists the record's keys in order: its i-th entry is the key of the i-th property, one per property, with no repeats |
| JsValues.ToStr | src/lib/csvExport.js:49 | `String(v)` is the string itself for a string, `true`/`false`, `null` and `undefined` for the others, and for an integer a non-empty run of decimal digits, with a leading `-` exactly when it is negative, whose value read left to right (`DigitsValue`) is the integer's magnitude, and without leading zeros, so the text of each integer is unique |
| JsValues.DecimalValue | src/lib/csvExport.js:49 | the decimal digits printed for a natural number spell that number |
| JsValues.Join | src/lib/csvExport.js:42-55 | `join` of no parts is `""` and of one part is that part, with no separator |
| JsValues.JoinEnds | src/lib/csvExport.js:42-55 | a joined text starts with the first part and ends with the last, with the separator just before the last when there are two or more parts |
| JsValues.TakeUntil | src/lib/csvExport.js:119 | `s.split('T')[0]` is the longest prefix without a `T`; it is followed by the `T` when there is one |
| JsValues.TakeUntilAt | src/lib/csvExport.js:119 | when the first `T` is at position k, `split('T')[0]` is exactly the first k characters |
| CsvExport.DoubleQuotes | src/lib/csvExport.js:49 | doubling quotes leaves a string with no trigger character unchanged |
| CsvExport.DoubleQuotesChar | src/lib/csvExport.js:49 | `replace(/"/g, '""')` turns a `"` into two and keeps any other character |
| CsvExport.DoubleQuotesAppend | src/lib/csvExport.js:49 | the replacement works character by character: replacing in `s + t` is replacing in `s` followed by replacing in `t` |
| CsvExport.NeedsQuoteAppend | src/lib/csvExport.js:48 | `s + t` needs quoting exactly when `s` or `t` does |
| CsvExport.Encode | src/lib/csvExport.js:48-50 | a string without a trigger character is written verbatim; otherwise it is written inside quotes with inner quotes doubled; the output starts with a quote exactly when the input needs quoting |
| CsvExport.NeedsQuoteIffTrigger | src/lib/csvExport.js:48 | the quoting test holds exactly when some character is `"`, `,` or a line feed |
| CsvExport.FieldText | src/lib/csvExport.js:46-50 | every value, `null` and `undefined` included, is written as the encoding of its string form: the empty-value branch is never taken |
| CsvExport.ConvertToCsv | src/lib/csvExport.js:17-58 | the loop that pushes one line per record produces the specification `CsvText`: `""` without headers and without rows, a `TypeError` for null data with headers, otherwise the header line and one line per record joined by line feeds |
| CsvExport.EmptyInput | src/lib/csvExport.js:28-30 | with no headers, null or empty data gives `""`; with headers and no rows the output is exactly the headers joined by commas, unescaped |
| CsvExport.NullDataWithHeadersThrows | src/lib/csvExport.js:45 | with headers given, null data fails at the row loop with exactly the `TypeError` "data is not iterable" |
| CsvExport.InferredHeaders | src/lib/csvExport.js:33 | without headers the first record's keys are used, in order; given headers take precedence |
| CsvExport.RowsGiveNonEmptyText | src/lib/csvExport.js:39-55 | at least one row always gives non-empty text |
| CsvExport.SameBindingsSameLine | src/lib/csvExport.js:46-51 | two records that bind every header name to the same value give the same line, whatever their other keys and their key order |
| CsvExport.MissingAndNullValues | src/lib/csvExport.js:47-50 | a missing key is written as `undefined` and a `null` value as `null` |
| CsvExport.NumbersNeverQuoted | src/lib/csvExport.js:48-50 | integers and booleans are written as their string form, never quoted |
| CsvExport.CarriageReturnNotQuoted | src/lib/csvExport.js:48 | inserting a carriage return anywhere in any string never changes whether it is quoted; a string that needs no quoting is written with its carriage return verbatim |
| CsvExport.ExportAsCsv | src/lib/csvExport.js:104-141 | the method follows `Exporting`: guard, file name, serialise, download, with each outcome and effect |
| CsvExport.ExportRejects | src/lib/csvExport.js:111-114 | data that is not an array, or is empty, only raises the "No data to export." notice and returns nothing |
| CsvExport.ExportDownloadsOnce | src/lib/csvExport.js:117-140 | otherwise the content is non-empty, exactly one `text/csv` download of it happens, and the result is success with the file name, or the wrapped download error |
| CsvExport.FilenameCarriesDate | src/lib/csvExport.js:119-120 | with an ISO timestamp the file name is `<base>-YYYY-MM-DD.csv` |
| CsvExport.FormatReport | src/lib/csvExport.js:173-183 | one report formats without error exactly when both of its dates are valid |
| CsvExport.FormatReportRenames | src/lib/csvExport.js:176-182 | a formatted report has exactly the seven display columns in order; `ID` through `Priority` are copied from `id` through `priority`; the two dates are cut to their date part |
| CsvExport.FormatAll | src/lib/csvExport.js:173-183 | mapping succeeds exactly when every report does; the result then has one formatted record per report, in order |
| CsvExport.FormatReportsForCsv | src/lib/csvExport.js:150-184 | null or empty input gives `[]`; otherwise the mapping of every report |
| CsvExport.FormattedReportsInferHeaders | src/lib/csvExport.js:190-198 | formatted reports serialise the same with or without `REPORTS_CSV_HEADERS`: their keys are that list |
| CsvReader.CsvRoundTrip | src/lib/csvExport.js:39-55 | with one or more unquoted headers, reading the CSV back gives the header record followed by each record's string values in header order |
| CsvReader.FieldRoundTrip | src/lib/csvExport.js:48-50 | reading one encoded field back gives the value's string form: the outer quotes are stripped and each doubled quote halved |
| FiltersForm.InitialFilters | src/components/FiltersForm.jsx:8-16 | the starting record has the six filters plus every property of `initialFilters`; each property given keeps its value; each missing filter is `''` |
| FiltersForm.InitialIsBlankOverridden | src/components/FiltersForm.jsx:8-16 | the starting record is the blank record with `initialFilters` laid over it, so the `''` fallbacks are redundant |
| FiltersForm.InitialWithoutProps | src/components/FiltersForm.jsx:7-16 | with no initial filters the form starts from the record reset installs |
| FiltersForm.HandleChange | src/components/FiltersForm.jsx:45-47 | a change sets exactly that property, keeps every other property, and submits nothing |
| FiltersForm.ChangeOverrides | src/components/FiltersForm.jsx:45-47 | a second change of the same property overrides the first |
| FiltersForm.HandleSubmit | src/components/FiltersForm.jsx:27-30 | a submit passes the current record on and leaves it in place |
| FiltersForm.HandleReset | src/components/FiltersForm.jsx:32-43 | a reset leaves exactly the six filters, all blank, dropping any extra property, and submits that same record |
| FiltersForm.RunKeepsFilters | src/components/FiltersForm.jsx:27-47 | no sequence of actions removes any of the six filters |
| FiltersForm.RunSubmitCount | src/components/FiltersForm.jsx:27-47 | every submit and every reset calls `onSubmit` once; changes never do |
| FiltersForm.RunEndingInReset | src/components/FiltersForm.jsx:32-43 | after a final reset the state and the last submitted record are the blank record, whatever came before |
| FiltersForm.LengthOf | src/components/FiltersForm.jsx:22 | `.length` of the debounced value is a string's length, `undefined` on numbers and booleans, and fails, always with a `TypeError`, exactly on `null` and `undefined` |
| FiltersForm.SearchGuard | src/components/FiltersForm.jsx:22 | the guard holds on a string exactly when it is non-empty, and on a number or boolean exactly when it is truthy; it throws on `null` and `undefined` |
| FiltersForm.AutoSubmissions | src/components/FiltersForm.jsx:21-25 | over a sequence of renders the effect submits at most one record per render |
| FiltersForm.AutoSubmissionsInOrder | src/components/FiltersForm.jsx:21-25 | when no guard throws, the submissions are exactly the records of the renders after which the effect runs with the guard true, one each, in render order |
| FiltersForm.FirstThrowEndsRun | src/components/FiltersForm.jsx:21-25 | when the effect runs after render `i` with a `null` or `undefined` debounced value and no earlier run threw, the sequence ends with the `TypeError` of render `i` |
| FiltersForm.AutoSubmissionsFailIff | src/components/FiltersForm.jsx:21-25 | the auto-submit fails exactly when the effect runs after some render whose debounced value is `null` or `undefined` |
| FiltersForm.BlankSearchNeverSubmits | src/components/FiltersForm.jsx:21-25 | while the debounced search is `''`, nothing is submitted |
| FiltersForm.SteadySearchRunsOnce | src/components/FiltersForm.jsx:21-25 | while the debounced search does not change, the effect runs only after the first render, so at most one record is submitted |
| FiltersForm.SubmissionsComeFromFiringRenders | src/components/FiltersForm.jsx:21-25 | every submitted record is the whole filter record of a render after which the effect ran with the guard true |
| FiltersForm.LastFiringRenderSubmits | src/components/FiltersForm.jsx:21-25 | a render after which the effect runs with the guard true submits its whole record |
| FiltersForm.ExportQuery | src/components/FiltersForm.jsx:59-66 | the request is sorted by the first sorting entry, or by `createdAt`; the order is `desc` exactly when there is no entry or the first entry is descending, else `asc`; it carries the filters and `filters.search` |
| FiltersForm.HandleCsv | src/components/FiltersForm.jsx:49-68 | the request is the derived one; the export runs exactly when the fetch resolves, with base name `reports` and the seven fixed headers |
| FiltersForm.ExportHeadersPlain | src/components/FiltersForm.jsx:50-58 | none of the seven export headers needs quoting |
| FiltersForm.ExportedFileReadsBack | src/components/FiltersForm.jsx:49-68 | for a resolved non-empty array, exactly one `reports-<date>.csv` file is downloaded; reading it back gives the seven headers followed by each row's values in column order; success is reported exactly when the download succeeds |

## Left out

- `downloadFile` (src/lib/csvExport.js:67-95) builds a Blob, an object URL and an anchor click, which is browser I/O. It is a parameter `delivered`: whether the download returned without throwing. The download the export asks for is recorded as an effect.
- The clock: `new Date().toISOString()` in `exportAsCSV` is a parameter `isoNow`.
- `console.log` and `console.error` calls are not modelled. `alert` is recorded as an effect.
- JavaScript `Date` parsing in `formatReportsForCSV` is a parameter `isoString`. It maps a value to its ISO string, or to `None` for an invalid date, which throws a `RangeError`.
- src/hooks/useDebounce.js is timer and event-loop behaviour. The value it returns in each render is an input of `FiltersForm.AutoSubmissions`, not derived from earlier search values.
- `reportsAPI.getCSVdata` is a network call: its settled result is a parameter of `FiltersForm.HandleCsv`, and its dependence on the request is not modelled. `useReportsData` is not part of this model; its `sorting` value is a parameter.
- The JSX rendering (src/components/FiltersForm.jsx:71-203) and `e.preventDefault()` are not modelled.
- The "Export CSV Data" button (src/components/FiltersForm.jsx:196) sits inside the form and has no `type`, so a browser treats it as a submit button: a click also runs `handleSubmit` and calls `onSubmit` with the current record. `FiltersForm.HandleCsv` models only the `onClick` handler, not this second effect of the click.
- The default `baseFilename = 'reports'` of `exportAsCSV` (src/lib/csvExport.js:104) is not modelled: `CsvExport.ExportAsCsv` always takes the base name, and its one caller passes `reports`.
- FiltersForm.LengthOf: a string's length counts characters, where JavaScript `.length` counts UTF-16 code units. Only its comparison with 0 reaches the guard, and a string is empty under both counts at the same time.
- JavaScript values are primitives only.
  - Numbers are integers: no fractions, `NaN`, `Infinity` or `-0`.
  - JsValues.ToStr: an integer is written as plain decimal digits at any size. JavaScript switches to exponent notation from `1e21`, and integers beyond 2^53 are not exact JavaScript numbers; neither is modelled.
  - Nested objects and arrays as field values, whose string forms are `[object Object]` or comma lists, are not modelled.
- Records are ordered key lists. The rule that `Object.keys` lists integer-like keys first is not modelled, nor are inherited properties or getters.
- `convertToCSV` is modelled for data that is an array of records, `null` or `undefined`. Other non-array data, and `null` elements inside the array (where `Object.keys` and property access throw), are not modelled. The same holds for the reports passed to `formatReportsForCSV`.
- A zero-column export, `convertToCSV(data, [])`, writes an empty line per record, which `CsvReader` reads back as one empty field, not as no fields, so such a file cannot be read back as written. `CsvReader.CsvRoundTrip` therefore requires at least one header.
- `initialFilters = null`: the `= {}` default (src/components/FiltersForm.jsx:7) only replaces `undefined`, so `initialFilters.status` at line 9 throws a `TypeError` on `null`. `FiltersForm.InitialFilters` takes a record or no record, and this throw is not modelled.
- The filter record is a map, so the key order of that object is not modelled. It has no effect on the form's behaviour.
- FiltersForm.AutoSubmissions: a guard that throws ends the sequence with that error. What React then does (error boundaries, unmounting) is not modelled.
- The texts of the engine's `TypeError` and `RangeError` messages follow V8. Other engines word them differently.

=== FILE: csv_export.dfy ===
/** The CSV export utility: serialising records to CSV text, the export
    decision around the download, and the renaming of report fields. */
module CsvExport {
  import opened Wrappers
  import opened JsValues

  /** The characters that make a field need quotes. A carriage return is
      not among them. */
  predicate IsTrigger(c: char)
  {
    c == '"' || c == ',' || c == '\n'
  }

  /** `/[",\n]/.test(s)`: some character of `s` is a trigger. */
  predicate NeedsQuote(s: string)
    decreases |s|
  {
    s != [] && (IsTrigger(s[0]) || NeedsQuote(s[1..]))
  }

  /** What `.replace(/"/g, '""')` writes for one character. */
  function Escaped(c: char): string
  {
    if c == '"' then "\"\"" else [c]
  }

  /** `s.replace(/"/g, '""')`. */
  function DoubleQuotes(s: string): (r: string)
    ensures !NeedsQuote(s) ==> r == s
    decreases |s|
  {
    if s == [] then [] else Escaped(s[0]) + DoubleQuotes(s[1..])
  }

  /** A quote is doubled, any other character is kept. */
  lemma DoubleQuotesChar(c: char)
    ensures DoubleQuotes([c]) == (if c == '"' then "\"\"" else [c])
  {
    assert [c][1..] == [];
  }

  /** Replacing works character by character: the text of a concatenation
      is the concatenation of the texts. */
  lemma {:induction false} DoubleQuotesAppend(s: string, t: string)
    ensures DoubleQuotes(s + t) == DoubleQuotes(s) + DoubleQuotes(t)
    decreases |s|
  {
    if s == [] {
      assert s + t == t;
    } else {
      assert (s + t)[0] == s[0] && (s + t)[1..] == s[1..] + t;
      DoubleQuotesAppend(s[1..], t);
    }
  }

  /** The text written for a field whose string form is `s`. */
  function Encode(s: string): (r: string)
    ensures !NeedsQuote(s) ==> r == s
    ensures NeedsQuote(s) ==> r == "\"" + DoubleQuotes(s) + "\""
    ensures (|r| > 0 && r[0] == '"') <==> NeedsQuote(s)
  {
    var escaped := DoubleQuotes(s);
    if NeedsQuote(s) then "\"" + escaped + "\"" else escaped
  }

  /** The map callback of one data row: the blanking guard tests
      `undefined && null`, which no value is. */
  function FieldText(v: JsVal): (r: string)
    ensures r == Encode(ToStr(v))
  {
    if v.Undefined? && v.Null? then "" else Encode(ToStr(v))
  }

  /** The fields of one data row, one per header, in header order. */
  function RowFields(item: Row, hs: seq<string>): seq<string>
  {
    seq(|hs|, k requires 0 <= k < |hs| => FieldText(Lookup(item, hs[k])))
  }

  function RecordLine(item: Row, hs: seq<string>): string
  {
    Join(RowFields(item, hs), ",")
  }

  function RecordLines(items: seq<Row>, hs: seq<string>): seq<string>
  {
    seq(|items|, k requires 0 <= k < |items| => RecordLine(items[k], hs))
  }

  /** The header line: names joined by commas, never escaped. */
  function HeaderLine(hs: seq<string>): string
  {
    Join(hs, ",")
  }

  /** `headers || Object.keys(data[0])`: an array, even an empty one, is truthy. */
  function ChosenHeaders(data: Option<seq<Row>>, headers: Option<seq<string>>): seq<string>
    requires headers.Some? || (data.Some? && |data.value| > 0)
  {
    if headers.Some? then headers.value else Keys(data.value[0])
  }

  /** What `convertToCSV(data, headers)` returns or throws. `None` data stands
      for `null`/`undefined`, `None` headers for the default `null`. */
  function CsvText(data: Option<seq<Row>>, headers: Option<seq<string>>): Result<string, JsError>
  {
    if headers.None? && (data.None? || |data.value| == 0) then Success("")
    else if data.None? then Failure(TypeError("data is not iterable"))
    else
      var hs := ChosenHeaders(data, headers);
      Success(Join([HeaderLine(hs)] + RecordLines(data.value, hs), "\n"))
  }

  /** `line` applied to each row, in order. */
  function LinesOf(items: seq<Row>, line: Row -> string): (r: seq<string>)
    ensures |r| == |items|
  {
    seq(|items|, k requires 0 <= k < |items| => line(items[k]))
  }

  lemma LinesOfSnoc(items: seq<Row>, i: nat, line: Row -> string)
    requires i < |items|
    ensures LinesOf(items[..i + 1], line) == LinesOf(items[..i], line) + [line(items[i])]
  {
  }

  /** `convertToCSV`: grows the list of lines one data row at a time, then
      joins it with line feeds. */
  method ConvertToCsv(data: Option<seq<Row>>, headers: Option<seq<string>>)
    returns (r: Result<string, JsError>)
    ensures r == CsvText(data, headers)
  {
    if headers.None? && (data.None? || |data.value| == 0) {
      return Success("");
    }
    var hs := ChosenHeaders(data, headers);
    var lines := [HeaderLine(hs)];
    if data.None? {
      return Failure(TypeError("data is not iterable"));
    }
    var items := data.value;
    var line := (item: Row) => RecordLine(item, hs);
    var i := 0;
    while i < |items|
      invariant 0 <= i <= |items|
      invariant lines == [HeaderLine(hs)] + LinesOf(items[..i], line)
    {
      LinesOfSnoc(items, i, line);
      lines := lines + [line(items[i])];
      i := i + 1;
    }
    assert items[..i] == items;
    assert LinesOf(items, line) == RecordLines(items, hs);
    r := Success(Join(lines, "\n"));
  }

  /* ---------------- Properties of the serialiser ---------------- */

  /** With no headers, null or empty data gives the empty text; with headers
      and no rows, the text is exactly the header line. */
  lemma EmptyInput(hs: seq<string>)
    ensures CsvText(None, None) == Success("")
    ensures CsvText(Some([]), None) == Success("")
    ensures CsvText(Some([]), Some(hs)) == Success(Join(hs, ","))
  {
  }

  /** Given headers but null data, the `for...of` loop throws. */
  lemma NullDataWithHeadersThrows(hs: seq<string>)
    ensures CsvText(None, Some(hs)) == Failure(TypeError("data is not iterable"))
  {
  }

  /** Explicit headers win; without them the first row's keys are used, in
      their order. */
  lemma {:induction false} InferredHeaders(items: seq<Row>, other: seq<string>)
    requires |items| > 0
    ensures CsvText(Some(items), None) == CsvText(Some(items), Some(Keys(items[0])))
    ensures ChosenHeaders(Some(items), Some(other)) == other
  {
  }

  lemma {:induction false} JoinLongerThanSep(parts: seq<string>, sep: string)
    requires |parts| >= 2
    ensures |Join(parts, sep)| >= |sep|
  {
    assert Join(parts, sep) == parts[0] + sep + Join(parts[1..], sep);
  }

  /** One or more rows never serialise to the empty text: there is at least
      one line feed. */
  lemma {:induction false} RowsGiveNonEmptyText(items: seq<Row>, headers: Option<seq<string>>)
    requires |items| > 0
    ensures CsvText(Some(items), headers).Success?
    ensures CsvText(Some(items), headers).value != ""
  {
    var hs := ChosenHeaders(Some(items), headers);
    JoinLongerThanSep([HeaderLine(hs)] + RecordLines(items, hs), "\n");
  }

  /** A record line depends only on the values the row binds to the header
      names: neither the row's own key order nor its other keys matter. */
  lemma SameBindingsSameLine(a: Row, b: Row, hs: seq<string>)
    requires forall k :: k in hs ==> Lookup(a, k) == Lookup(b, k)
    ensures RecordLine(a, hs) == RecordLine(b, hs)
  {
    assert RowFields(a, hs) == RowFields(b, hs);
  }

  /** Missing keys and `undefined` render as the text `undefined`, `null` as
      `null`: never as an empty cell. */
  lemma MissingAndNullValues(item: Row, key: string)
    requires key !in Keys(item)
    ensures FieldText(Lookup(item, key)) == "undefined"
    ensures FieldText(Null) == "null"
  {
    var ks := Keys(item);
    assert forall j :: 0 <= j < |item| ==> item[j].0 == ks[j];
    assert Lookup(item, key) == Undefined;
    assert !NeedsQuote("undefined");
    assert !NeedsQuote("null");
  }

  /** The recursive test agrees with its description: a string needs quotes
      exactly when one of its characters is a trigger. */
  lemma {:induction false} NeedsQuoteIffTrigger(s: string)
    ensures NeedsQuote(s) <==> exists i :: 0 <= i < |s| && IsTrigger(s[i])
    decreases |s|
  {
    if s != [] {
      NeedsQuoteIffTrigger(s[1..]);
      if NeedsQuote(s[1..]) {
        var i :| 0 <= i < |s[1..]| && IsTrigger(s[1..][i]);
        assert IsTrigger(s[i + 1]);
      }
      if exists i :: 0 <= i < |s| && IsTrigger(s[i]) {
        var i :| 0 <= i < |s| && IsTrigger(s[i]);
        if i > 0 {
          assert IsTrigger(s[1..][i - 1]);
        }
      }
    }
  }

  lemma {:induction false} DigitsNeedNoQuote(d: string)
    requires forall i :: 0 <= i < |d| ==> '0' <= d[i] <= '9'
    ensures !NeedsQuote(d)
    decreases |d|
  {
    if d != [] {
      DigitsNeedNoQuote(d[1..]);
    }
  }

  /** Integers and booleans are written verbatim, never quoted. */
  lemma NumbersNeverQuoted(v: JsVal)
    requires v.Num? || v.Bool?
    ensures FieldText(v) == ToStr(v)
  {
    if v.Num? {
      var d := Decimal(if v.n < 0 then -v.n else v.n);
      DigitsNeedNoQuote(d);
      if v.n < 0 {
        assert ToStr(v) == ['-'] + d;
        assert (['-'] + d)[1..] == d;
        assert !NeedsQuote(['-'] + d);
      }
    } else {
      assert !NeedsQuote("true") && !NeedsQuote("false");
    }
  }

  /** A string needs quotes when either of its parts does. */
  lemma {:induction false} NeedsQuoteAppend(s: string, t: string)
    ensures NeedsQuote(s + t) <==> NeedsQuote(s) || NeedsQuote(t)
    decreases |s|
  {
    if s != [] {
      assert (s + t)[1..] == s[1..] + t;
      NeedsQuoteAppend(s[1..], t);
    } else {
      assert s + t == t;
    }
  }

  /** A carriage return does not trigger quoting, unlike section 2 of RFC 4180:
      inserting one anywhere never changes whether a field is quoted, and a
      field with no other trigger is written verbatim. */
  lemma CarriageReturnNotQuoted(s: string, t: string)
    ensures NeedsQuote(s + "\r" + t) <==> NeedsQuote(s + t)
    ensures !NeedsQuote(s + t) ==> FieldText(Str(s + "\r" + t)) == s + "\r" + t
  {
    NeedsQuoteAppend(s + "\r", t);
    NeedsQuoteAppend(s, "\r");
    NeedsQuoteAppend(s, t);
    assert !NeedsQuote("\r");
  }

  /* ---------------- exportAsCSV ---------------- */

  /** Something the export does to the browser. */
  datatype Effect =
    | Alert(message: string)
    | Download(content: string, filename: string, mimeType: string)

  /** How `exportAsCSV` ends: returning `undefined`, returning
      `{success: true, filename}`, or throwing an `Error` with a message. */
  datatype ExportOutcome = NoData | Exported(filename: string) | Thrown(message: string)

  datatype ExportRun = ExportRun(outcome: ExportOutcome, effects: seq<Effect>)

  /** `${baseFilename}-${date}.csv` with the date taken from an ISO timestamp. */
  function ExportFilename(baseFilename: string, isoNow: string): string
  {
    baseFilename + "-" + TakeUntil(isoNow, 'T') + ".csv"
  }

  /** What `exportAsCSV(data, baseFilename, headers)` does. `data` is `None`
      when it is not an array; `isoNow` is `new Date().toISOString()`;
      `delivered` says whether `downloadFile` returned without throwing. */
  function Exporting(data: Option<seq<Row>>, baseFilename: string, headers: Option<seq<string>>,
                     isoNow: string, delivered: bool): ExportRun
  {
    if data.None? || |data.value| == 0 then
      ExportRun(NoData, [Alert("No data to export.")])
    else
      var filename := ExportFilename(baseFilename, isoNow);
      var content := CsvText(data, headers).value;
      if content == "" then ExportRun(Thrown("CSV export failed: No data to export"), [])
      else if !delivered then
        ExportRun(Thrown("CSV export failed: Failed to download file"),
                  [Download(content, filename, "text/csv")])
      else ExportRun(Exported(filename), [Download(content, filename, "text/csv")])
  }

  /** `exportAsCSV`: guard, build the file name, serialise, download. */
  method ExportAsCsv(data: Option<seq<Row>>, baseFilename: string, headers: Option<seq<string>>,
                     isoNow: string, delivered: bool)
    returns (run: ExportRun)
    ensures run == Exporting(data, baseFilename, headers, isoNow, delivered)
  {
    if data.None? || |data.value| == 0 {
      return ExportRun(NoData, [Alert("No data to export.")]);
    }
    var date := TakeUntil(isoNow, 'T');
    var filename := baseFilename + "-" + date + ".csv";
    var csv := ConvertToCsv(data, headers);
    var content := csv.value;
    if content == "" {
      return ExportRun(Thrown("CSV export failed: No data to export"), []);
    }
    var effects := [Download(content, filename, "text/csv")];
    if !delivered {
      return ExportRun(Thrown("CSV export failed: Failed to download file"), effects);
    }
    run := ExportRun(Exported(filename), effects);
  }

  /** Data that is not an array, or is empty, only raises the notice. */
  lemma ExportRejects(data: Option<seq<Row>>, baseFilename: string, headers: Option<seq<string>>,
                      isoNow: string, delivered: bool)
    requires data.None? || data.value == []
    ensures Exporting(data, baseFilename, headers, isoNow, delivered)
      == ExportRun(NoData, [Alert("No data to export.")])
  {
  }

  /** Otherwise there is exactly one download, of the serialised rows, and the
      result names the date-stamped file; the "No data to export" throw after
      serialising can never happen. */
  lemma {:induction false} ExportDownloadsOnce(items: seq<Row>, baseFilename: string,
                                               headers: Option<seq<string>>, isoNow: string,
                                               delivered: bool)
    requires |items| > 0
    ensures CsvText(Some(items), headers).Success?
    ensures var run := Exporting(Some(items), baseFilename, headers, isoNow, delivered);
      var content := CsvText(Some(items), headers).value;
      var filename := baseFilename + "-" + TakeUntil(isoNow, 'T') + ".csv";
      && content != ""
      && run.effects == [Download(content, filename, "text/csv")]
      && run.outcome == (if delivered then Exported(filename)
                         else Thrown("CSV export failed: Failed to download file"))
  {
    RowsGiveNonEmptyText(items, headers);
  }

  /** With a timestamp `YYYY-MM-DDThh:mm:ss.sssZ` the file name is
      `<base>-YYYY-MM-DD.csv`. */
  lemma {:induction false} FilenameCarriesDate(baseFilename: string, isoNow: string)
    requires |isoNow| > 10 && isoNow[10] == 'T' && 'T' !in isoNow[..10]
    ensures ExportFilename(baseFilename, isoNow) == baseFilename + "-" + isoNow[..10] + ".csv"
  {
    TakeUntilAt(isoNow, 'T', 10);
  }

  /* ---------------- formatReportsForCSV ---------------- */

  /** The column names of a formatted report, in their order. */
  const REPORTS_CSV_HEADERS: seq<string> :=
    ["ID", "Title", "Status", "Department", "Priority", "Created Date", "Updated Date"]

  /** The report column names are pairwise distinct. */
  lemma ReportColumnsDistinct()
    ensures forall i, j :: 0 <= i < j < |REPORTS_CSV_HEADERS| ==> REPORTS_CSV_HEADERS[i] != REPORTS_CSV_HEADERS[j]
  {
  }

  /** Column names paired with values, position by position. */
  function ColumnPairs(names: seq<string>, vals: seq<JsVal>): (fields: seq<(string, JsVal)>)
    requires |vals| == |names|
    ensures |fields| == |names|
    ensures forall i :: 0 <= i < |names| ==> fields[i] == (names[i], vals[i])
  {
    seq(|names|, i requires 0 <= i < |names| => (names[i], vals[i]))
  }

  /** The report columns holding the given values, in column order. */
  function ReportRow(vals: seq<JsVal>): (row: Row)
    requires |vals| == |REPORTS_CSV_HEADERS|
    ensures Keys(row) == REPORTS_CSV_HEADERS
    ensures forall i :: 0 <= i < |row| ==> Lookup(row, REPORTS_CSV_HEADERS[i]) == vals[i]
  {
    ReportColumnsDistinct();
    ColumnPairs(REPORTS_CSV_HEADERS, vals)
  }

  /** One report renamed for export. `isoString(v)` is
      `new Date(v).toISOString()`, `None` when the date is invalid (a
      `RangeError`). */
  function FormatReport(report: Row, isoString: JsVal -> Option<string>): (r: Result<Row, JsError>)
    ensures r.Success? <==> isoString(Lookup(report, "createdAt")).Some?
                            && isoString(Lookup(report, "updatedAt")).Some?
  {
    var created := isoString(Lookup(report, "createdAt"));
    var updated := isoString(Lookup(report, "updatedAt"));
    if created.None? || updated.None? then Failure(RangeError("Invalid time value"))
    else
      Success(ReportRow([
        Lookup(report, "id"),
        Lookup(report, "title"),
        Lookup(report, "status"),
        Lookup(report, "department"),
        Lookup(report, "priority"),
        Str(TakeUntil(created.value, 'T')),
        Str(TakeUntil(updated.value, 'T'))
      ]))
  }

  /** A formatted report has exactly the report columns, in order, with
      `ID`..`Priority` copied from `id`..`priority` and the two dates cut to
      their `YYYY-MM-DD` part. */
  lemma FormatReportRenames(report: Row, isoString: JsVal -> Option<string>)
    requires FormatReport(report, isoString).Success?
    ensures var row := FormatReport(report, isoString).value;
      && Keys(row) == REPORTS_CSV_HEADERS
      && Lookup(row, "ID") == Lookup(report, "id")
      && Lookup(row, "Title") == Lookup(report, "title")
      && Lookup(row, "Status") == Lookup(report, "status")
      && Lookup(row, "Department") == Lookup(report, "department")
      && Lookup(row, "Priority") == Lookup(report, "priority")
      && Lookup(row, "Created Date")
         == Str(TakeUntil(isoString(Lookup(report, "createdAt")).value, 'T'))
      && Lookup(row, "Updated Date")
         == Str(TakeUntil(isoString(Lookup(report, "updatedAt")).value, 'T'))
  {
    var vals := [
      Lookup(report, "id"),
      Lookup(report, "title"),
      Lookup(report, "status"),
      Lookup(report, "department"),
      Lookup(report, "priority"),
      Str(TakeUntil(isoString(Lookup(report, "createdAt")).value, 'T')),
      Str(TakeUntil(isoString(Lookup(report, "updatedAt")).value, 'T'))
    ];
    var row := ReportRow(vals);
    assert FormatReport(report, isoString).value == row;
    assert Lookup(row, REPORTS_CSV_HEADERS[0]) == vals[0];
    assert Lookup(row, REPORTS_CSV_HEADERS[1]) == vals[1];
    assert Lookup(row, REPORTS_CSV_HEADERS[2]) == vals[2];
    assert Lookup(row, REPORTS_CSV_HEADERS[3]) == vals[3];
    assert Lookup(row, REPORTS_CSV_HEADERS[4]) == vals[4];
    assert Lookup(row, REPORTS_CSV_HEADERS[5]) == vals[5];
    assert Lookup(row, REPORTS_CSV_HEADERS[6]) == vals[6];
  }

  /** `reports.map(...)`: the first report with an invalid date throws. */
  function FormatAll(reports: seq<Row>, isoString: JsVal -> Option<string>): (r: Result<seq<Row>, JsError>)
    ensures r.Success? <==> forall i :: 0 <= i < |reports| ==> FormatReport(reports[i], isoString).Success?
    ensures r.Success? ==>
      && |r.value| == |reports|
      && forall i :: 0 <= i < |reports| ==> FormatReport(reports[i], isoString) == Success(r.value[i])
    decreases |reports|
  {
    if reports == [] then Success([])
    else
      var head := FormatReport(reports[0], isoString);
      var tail := FormatAll(reports[1..], isoString);
      if head.Failure? then Failure(head.error)
      else if tail.Failure? then Failure(tail.error)
      else
        assert forall i :: 1 <= i < |reports| ==> reports[i] == reports[1..][i - 1];
        Success([head.value] + tail.value)
  }

  /** `formatReportsForCSV`: `None` stands for `null`/`undefined`. */
  function FormatReportsForCsv(reports: Option<seq<Row>>, isoString: JsVal -> Option<string>)
    : (r: Result<seq<Row>, JsError>)
    ensures reports.None? || reports.value == [] ==> r == Success([])
    ensures reports.Some? ==> r == FormatAll(reports.value, isoString)
  {
    if reports.None? || |reports.value| == 0 then Success([]) else FormatAll(reports.value, isoString)
  }

  /** Formatted reports need no explicit headers: the first one's keys are
      exactly the report column list. */
  lemma {:induction false} FormattedReportsInferHeaders(reports: seq<Row>, isoString: JsVal -> Option<string>)
    requires FormatReportsForCsv(Some(reports), isoString).Success?
    requires reports != []
    ensures var formatted := FormatReportsForCsv(Some(reports), isoString).value;
      CsvText(Some(formatted), None) == CsvText(Some(formatted), Some(REPORTS_CSV_HEADERS))
  {
    var formatted := FormatReportsForCsv(Some(reports), isoString).value;
    assert FormatReport(reports[0], isoString) == Success(formatted[0]);
    FormatReportRenames(reports[0], isoString);
    InferredHeaders(formatted, REPORTS_CSV_HEADERS);
  }
}

=== FILE: csv_reader.dfy ===
/** A reader for CSV text in the dialect the serialiser writes (section 2 of
    RFC 4180 with line-feed record separators), used to state that
    serialising is reversible: reading the text back gives the header names
    and, for every row, the string form of each value in header order. */
module CsvReader {
  import opened Wrappers
  import opened JsValues
  import opened CsvExport

  /** Where the reader is: outside quotes, inside a quoted field, or just
      after a quote inside a quoted field (which either closes the field or,
      followed by a second quote, stands for one quote character). */
  datatype Mode = Plain | Quoted | QuoteSeen

  /** The reader's state: its mode, the field read so far, the finished
      fields of the current record and the finished records. */
  datatype Reader = Reader(mode: Mode, field: string, record: seq<string>, done: seq<seq<string>>)

  function Start(record: seq<string>, done: seq<seq<string>>): Reader
  {
    Reader(Plain, [], record, done)
  }

  /** Reads one character outside quotes. */
  function PlainStep(r: Reader, c: char): Reader
  {
    if c == '"' then r.(mode := Quoted)
    else if c == ',' then Start(r.record + [r.field], r.done)
    else if c == '\n' then Start([], r.done + [r.record + [r.field]])
    else r.(mode := Plain, field := r.field + [c])
  }

  /** Reads one character. */
  function Step(r: Reader, c: char): Reader
  {
    match r.mode
    case Quoted =>
      if c == '"' then r.(mode := QuoteSeen) else r.(field := r.field + [c])
    case QuoteSeen =>
      if c == '"' then r.(mode := Quoted, field := r.field + ['"']) else PlainStep(r, c)
    case Plain => PlainStep(r, c)
  }

  /** The end of the text closes the current field and record. */
  function Finish(r: Reader): seq<seq<string>>
  {
    r.done + [r.record + [r.field]]
  }

  function Scan(t: string, r: Reader): seq<seq<string>>
    decreases |t|
  {
    if t == [] then Finish(r) else Scan(t[1..], Step(r, t[0]))
  }

  /** The records of a CSV text, each a list of field values. */
  function Parse(t: string): seq<seq<string>>
  {
    Scan(t, Start([], []))
  }

  lemma ScanCons(c: char, t: string, r: Reader)
    ensures Scan([c] + t, r) == Scan(t, Step(r, c))
  {
    assert ([c] + t)[1..] == t;
  }

  /** Every field written, by `Encode`. */
  function EncodeAll(fs: seq<string>): (r: seq<string>)
    ensures |r| == |fs|
    decreases |fs|
  {
    if fs == [] then [] else [Encode(fs[0])] + EncodeAll(fs[1..])
  }

  lemma {:induction false} EncodeAllAt(fs: seq<string>, i: nat)
    requires i < |fs|
    ensures EncodeAll(fs)[i] == Encode(fs[i])
    decreases i
  {
    if i > 0 {
      assert EncodeAll(fs) == [Encode(fs[0])] + EncodeAll(fs[1..]);
      assert fs[1..][i - 1] == fs[i];
      EncodeAllAt(fs[1..], i - 1);
    }
  }

  /** Text that needs no quotes is written as it is. */
  lemma {:induction false} EncodeAllPlain(fs: seq<string>)
    requires forall i :: 0 <= i < |fs| ==> !NeedsQuote(fs[i])
    ensures EncodeAll(fs) == fs
    decreases |fs|
  {
    if fs != [] {
      EncodeAllPlain(fs[1..]);
    }
  }

  /** Every record written as its encoded fields joined by commas. */
  function EncodeTable(table: seq<seq<string>>): (r: seq<string>)
    ensures |r| == |table|
    decreases |table|
  {
    if table == [] then [] else [Join(EncodeAll(table[0]), ",")] + EncodeTable(table[1..])
  }

  lemma {:induction false} EncodeTableAt(table: seq<seq<string>>, i: nat)
    requires i < |table|
    ensures EncodeTable(table)[i] == Join(EncodeAll(table[i]), ",")
    decreases i
  {
    if i > 0 {
      EncodeTableAt(table[1..], i - 1);
    }
  }

  /** The string forms of one row's values, in header order. */
  function ValueRow(item: Row, hs: seq<string>): seq<string>
  {
    seq(|hs|, k requires 0 <= k < |hs| => ToStr(Lookup(item, hs[k])))
  }

  function ValueTable(items: seq<Row>, hs: seq<string>): seq<seq<string>>
  {
    seq(|items|, k requires 0 <= k < |items| => ValueRow(items[k], hs))
  }

  /** Unquoted text without a trigger character is read as field content. */
  lemma {:induction false} PlainRun(s: string, rest: string, field: string, record: seq<string>,
                                    done: seq<seq<string>>)
    requires !NeedsQuote(s)
    ensures Scan(s + rest, Reader(Plain, field, record, done))
         == Scan(rest, Reader(Plain, field + s, record, done))
    decreases |s|
  {
    if s == [] {
      assert s + rest == rest && field + s == field;
    } else {
      assert s + rest == [s[0]] + (s[1..] + rest);
      ScanCons(s[0], s[1..] + rest, Reader(Plain, field, record, done));
      PlainRun(s[1..], rest, field + [s[0]], record, done);
      assert field + [s[0]] + s[1..] == field + s;
    }
  }

  lemma DoubleQuotesCons(s: string, rest: string)
    requires s != []
    ensures DoubleQuotes(s) + ['"'] + rest == Escaped(s[0]) + (DoubleQuotes(s[1..]) + ['"'] + rest)
  {
  }

  /** Inside quotes, an escaped character is read as that character. */
  lemma QuotedStep(c: char, more: string, field: string, record: seq<string>, done: seq<seq<string>>)
    ensures Scan(Escaped(c) + more, Reader(Quoted, field, record, done))
         == Scan(more, Reader(Quoted, field + [c], record, done))
  {
    var r := Reader(Quoted, field, record, done);
    if c == '"' {
      assert Escaped(c) + more == ['"'] + (['"'] + more);
      ScanCons('"', ['"'] + more, r);
      ScanCons('"', more, r.(mode := QuoteSeen));
    } else {
      ScanCons(c, more, r);
    }
  }

  /** The body of a quoted field and its closing quote are read back as the
      original text: every doubled quote is halved. */
  lemma {:induction false} QuotedRun(s: string, rest: string, field: string, record: seq<string>,
                                     done: seq<seq<string>>)
    ensures Scan(DoubleQuotes(s) + ['"'] + rest, Reader(Quoted, field, record, done))
         == Scan(rest, Reader(QuoteSeen, field + s, record, done))
    decreases |s|
  {
    if s == [] {
      assert DoubleQuotes(s) + ['"'] + rest == ['"'] + rest;
      ScanCons('"', rest, Reader(Quoted, field, record, done));
      assert field + s == field;
    } else {
      var more := DoubleQuotes(s[1..]) + ['"'] + rest;
      var field' := field + [s[0]];
      calc {
        Scan(DoubleQuotes(s) + ['"'] + rest, Reader(Quoted, field, record, done));
        { DoubleQuotesCons(s, rest); }
        Scan(Escaped(s[0]) + more, Reader(Quoted, field, record, done));
        { QuotedStep(s[0], more, field, record, done); }
        Scan(more, Reader(Quoted, field', record, done));
        { QuotedRun(s[1..], rest, field', record, done); }
        Scan(rest, Reader(QuoteSeen, field' + s[1..], record, done));
        { assert field' + s[1..] == field + s; }
        Scan(rest, Reader(QuoteSeen, field + s, record, done));
      }
    }
  }

  /** Just after a closing quote, anything but a quote is read as outside quotes. */
  lemma QuoteSeenAsPlain(rest: string, field: string, record: seq<string>, done: seq<seq<string>>)
    requires rest == [] || rest[0] != '"'
    ensures Scan(rest, Reader(QuoteSeen, field, record, done)) == Scan(rest, Reader(Plain, field, record, done))
  {
  }

  /** A field written by `Encode`, followed by anything but a quote, is read
      back as the original text. */
  lemma {:induction false} FieldRun(s: string, rest: string, record: seq<string>,
                                    done: seq<seq<string>>)
    requires rest == [] || rest[0] != '"'
    ensures Scan(Encode(s) + rest, Start(record, done)) == Scan(rest, Reader(Plain, s, record, done))
  {
    if NeedsQuote(s) {
      OpeningQuoteRun(s, rest, record, done);
      ClosingQuoteRun(s, rest, record, done);
    } else {
      PlainRun(s, rest, [], record, done);
      assert [] + s == s;
    }
  }

  /** The opening quote of a quoted field switches the reader into quotes. */
  lemma OpeningQuoteRun(s: string, rest: string, record: seq<string>, done: seq<seq<string>>)
    requires NeedsQuote(s)
    ensures Scan(Encode(s) + rest, Start(record, done))
         == Scan(DoubleQuotes(s) + ['"'] + rest, Reader(Quoted, [], record, done))
  {
    var body := DoubleQuotes(s) + ['"'] + rest;
    assert Encode(s) + rest == ['"'] + body;
    ScanCons('"', body, Start(record, done));
  }

  /** The body of a quoted field and its closing quote, followed by anything
      but a quote, leave the original text as the open field. */
  lemma ClosingQuoteRun(s: string, rest: string, record: seq<string>, done: seq<seq<string>>)
    requires rest == [] || rest[0] != '"'
    ensures Scan(DoubleQuotes(s) + ['"'] + rest, Reader(Quoted, [], record, done))
         == Scan(rest, Reader(Plain, s, record, done))
  {
    QuotedRun(s, rest, [], record, done);
    assert [] + s == s;
    QuoteSeenAsPlain(rest, s, record, done);
  }

  /** The reader's state at the end of a record whose fields are `fs`: the
      last field is still open. */
  function LineEnd(fs: seq<string>, record: seq<string>, done: seq<seq<string>>): Reader
    requires |fs| >= 1
    decreases |fs|
  {
    if |fs| == 1 then Reader(Plain, fs[0], record, done) else LineEnd(fs[1..], record + [fs[0]], done)
  }

  /** Closing that open field gives back the record's fields. */
  lemma {:induction false} LineEndCloses(fs: seq<string>, record: seq<string>, done: seq<seq<string>>)
    requires |fs| >= 1
    ensures LineEnd(fs, record, done).mode == Plain && LineEnd(fs, record, done).done == done
    ensures LineEnd(fs, record, done).record + [LineEnd(fs, record, done).field] == record + fs
    decreases |fs|
  {
    if |fs| > 1 {
      LineEndCloses(fs[1..], record + [fs[0]], done);
      assert record + [fs[0]] + fs[1..] == record + fs;
    }
  }

  lemma JoinCons(parts: seq<string>, sep: string)
    requires |parts| >= 2
    ensures Join(parts, sep) == parts[0] + (sep + Join(parts[1..], sep))
  {
    assert parts[0] + sep + Join(parts[1..], sep) == parts[0] + (sep + Join(parts[1..], sep));
  }

  /** One written record is read back field by field. */
  lemma {:induction false} LineRun(fs: seq<string>, rest: string, record: seq<string>,
                                   done: seq<seq<string>>)
    requires |fs| >= 1
    requires rest == [] || rest[0] == '\n'
    ensures Scan(Join(EncodeAll(fs), ",") + rest, Start(record, done)) == Scan(rest, LineEnd(fs, record, done))
    decreases |fs|
  {
    var e := EncodeAll(fs);
    if |fs| == 1 {
      assert Join(e, ",") + rest == Encode(fs[0]) + rest;
      FieldRun(fs[0], rest, record, done);
    } else {
      var tailText := Join(EncodeAll(fs[1..]), ",") + rest;
      assert e[1..] == EncodeAll(fs[1..]);
      JoinCons(e, ",");
      assert Join(e, ",") + rest == e[0] + ([','] + tailText);
      FieldRun(fs[0], [','] + tailText, record, done);
      ScanCons(',', tailText, Reader(Plain, fs[0], record, done));
      LineRun(fs[1..], rest, record + [fs[0]], done);
    }
  }

  /** A table of two or more records is written as its first line, a line
      feed, and the rest of the table. */
  lemma TableTextCons(table: seq<seq<string>>)
    requires |table| >= 2
    ensures Join(EncodeTable(table), "\n")
         == Join(EncodeAll(table[0]), ",") + (['\n'] + Join(EncodeTable(table[1..]), "\n"))
  {
    var lines := EncodeTable(table);
    JoinCons(lines, "\n");
    assert lines[0] == Join(EncodeAll(table[0]), ",");
    assert lines[1..] == EncodeTable(table[1..]);
  }

  /** A one-record table is read back as that record. */
  lemma SingleLineRun(fs: seq<string>, done: seq<seq<string>>)
    requires |fs| >= 1
    ensures Scan(Join(EncodeTable([fs]), "\n"), Start([], done)) == done + [fs]
  {
    var end := LineEnd(fs, [], done);
    LineEndCloses(fs, [], done);
    assert end.record + [end.field] == fs;
    assert [fs][1..] == [];
    assert Join(EncodeTable([fs]), "\n") == Join(EncodeAll(fs), ",") + [];
    LineRun(fs, [], [], done);
  }

  /** Reading the line feed after a complete record starts the next one. */
  lemma LineFeedRun(fs: seq<string>, rest: string, done: seq<seq<string>>)
    requires |fs| >= 1
    ensures Scan(Join(EncodeAll(fs), ",") + (['\n'] + rest), Start([], done))
         == Scan(rest, Start([], done + [fs]))
  {
    var end := LineEnd(fs, [], done);
    LineEndCloses(fs, [], done);
    assert end.record + [end.field] == fs;
    LineRun(fs, ['\n'] + rest, [], done);
    ScanCons('\n', rest, end);
  }

  /** A whole written table is read back record by record. */
  lemma {:induction false} TableRun(table: seq<seq<string>>, done: seq<seq<string>>)
    requires |table| >= 1
    requires forall i :: 0 <= i < |table| ==> |table[i]| >= 1
    ensures Scan(Join(EncodeTable(table), "\n"), Start([], done)) == done + table
    decreases |table|
  {
    if |table| == 1 {
      assert table == [table[0]];
      SingleLineRun(table[0], done);
    } else {
      var rest := Join(EncodeTable(table[1..]), "\n");
      TableTextCons(table);
      LineFeedRun(table[0], rest, done);
      TableRun(table[1..], done + [table[0]]);
      assert done + [table[0]] + table[1..] == done + table;
    }
  }

  /** A data row's fields are its values' string forms, encoded. */
  lemma RowFieldsEncoded(item: Row, hs: seq<string>)
    ensures RowFields(item, hs) == EncodeAll(ValueRow(item, hs))
  {
    var vs := ValueRow(item, hs);
    forall k | 0 <= k < |hs|
      ensures RowFields(item, hs)[k] == EncodeAll(vs)[k]
    {
      EncodeAllAt(vs, k);
    }
  }

  /** A data row's line joins its values' string forms, encoded. */
  lemma RecordLineEncoded(item: Row, hs: seq<string>)
    ensures RecordLine(item, hs) == Join(EncodeAll(ValueRow(item, hs)), ",")
  {
    RowFieldsEncoded(item, hs);
  }

  /** Line `i` of the table after the header is the row's encoded values. */
  lemma TableLineEncoded(items: seq<Row>, hs: seq<string>, i: nat)
    requires 1 <= i <= |items|
    ensures ([HeaderLine(hs)] + RecordLines(items, hs))[i] == EncodeTable([hs] + ValueTable(items, hs))[i]
  {
    var item := items[i - 1];
    var values := ValueTable(items, hs);
    var table := [hs] + values;
    var lines := RecordLines(items, hs);
    assert values[i - 1] == ValueRow(item, hs);
    assert table[i] == values[i - 1];
    assert lines[i - 1] == RecordLine(item, hs);
    assert ([HeaderLine(hs)] + lines)[i] == lines[i - 1];
    EncodeTableAt(table, i);
    RecordLineEncoded(item, hs);
  }

  /** The lines the serialiser produces are the encoded header names followed
      by the encoded string forms of every row's values. */
  lemma {:induction false} LinesAreEncodedTable(items: seq<Row>, hs: seq<string>)
    requires forall i :: 0 <= i < |hs| ==> !NeedsQuote(hs[i])
    ensures [HeaderLine(hs)] + RecordLines(items, hs) == EncodeTable([hs] + ValueTable(items, hs))
  {
    var table := [hs] + ValueTable(items, hs);
    var lines := [HeaderLine(hs)] + RecordLines(items, hs);
    var enc := EncodeTable(table);
    EncodeAllPlain(hs);
    EncodeTableAt(table, 0);
    forall i | 1 <= i < |lines|
      ensures lines[i] == enc[i]
    {
      TableLineEncoded(items, hs, i);
    }
  }

  /** Round trip: reading back the CSV text of any rows under header names
      that need no quoting gives the header names and then, for every row in
      order, one field per header holding the string form of that row's
      value. In particular there is exactly one record per row and exactly
      one field per header, in header order. */
  lemma {:induction false} CsvRoundTrip(items: seq<Row>, hs: seq<string>)
    requires |hs| >= 1
    requires forall i :: 0 <= i < |hs| ==> !NeedsQuote(hs[i])
    ensures CsvText(Some(items), Some(hs)).Success?
    ensures Parse(CsvText(Some(items), Some(hs)).value) == [hs] + ValueTable(items, hs)
  {
    var table := [hs] + ValueTable(items, hs);
    LinesAreEncodedTable(items, hs);
    assert forall i :: 0 <= i < |table| ==> |table[i]| >= 1 by {
      forall i | 0 <= i < |table| ensures |table[i]| >= 1 {
        if i > 0 { assert table[i] == ValueRow(items[i - 1], hs); }
      }
    }
    TableRun(table, []);
    var none: seq<seq<string>> := [];
    assert none + table == table;
  }

  /** One encoded string, alone, is read as one record of one field. */
  lemma EncodedFieldParses(s: string)
    ensures Parse(Encode(s)) == [[s]]
  {
    FieldRun(s, [], [], []);
    assert Encode(s) + [] == Encode(s);
    var noFields: seq<string>, noRecords: seq<seq<string>> := [], [];
    assert Scan([], Reader(Plain, s, noFields, noRecords)) == noRecords + [noFields + [s]];
    assert noFields + [s] == [s];
    assert noRecords + [[s]] == [[s]];
  }

  /** A single field read back is the original string form. */
  lemma {:induction false} FieldRoundTrip(v: JsVal)
    ensures Parse(FieldText(v)) == [[ToStr(v)]]
  {
    EncodedFieldParses(ToStr(v));
  }
}

=== FILE: filters_form.dfy ===
/** The logic of the report filter form: its filter record, the handlers
    that replace it, the auto-submit on the debounced search term, and the
    request and export that the "Export CSV" button issues. Each handler is
    a function from the current record to the next record and the record it
    hands to `onSubmit`, if any. */
module FiltersForm {
  import opened Wrappers
  import opened JsValues
  import opened CsvExport
  import CsvReader

  /** The filter record: a plain object from property name to value. */
  type Filters = map<string, JsVal>

  /** The record that reset installs and submits: the six filters the form
      edits, every one blank. */
  const RESET_FILTERS: Filters :=
    map["status" := Str(""), "department" := Str(""), "priority" := Str(""),
        "dateFrom" := Str(""), "dateTo" := Str(""), "search" := Str("")]

  /** `obj[key]` on a plain object. */
  function Get(m: Filters, key: string): (v: JsVal)
    ensures key in m ==> v == m[key]
    ensures key !in m ==> v == Undefined
  {
    if key in m then m[key] else Undefined
  }

  /** `v || ''`. */
  function OrBlank(v: JsVal): (r: JsVal)
    ensures Truthy(v) ==> r == v
    ensures !Truthy(v) ==> r == Str("")
    ensures Truthy(r) <==> Truthy(v)
  {
    if Truthy(v) then v else Str("")
  }

  /* ---------------- initial state ---------------- */

  /** The state the form starts from: each of the six filters taken from
      `initialFilters` when it is truthy there and blank otherwise, and then
      every property of `initialFilters` spread over the result. */
  function InitialFilters(init: Filters): (s: Filters)
    ensures s.Keys == init.Keys + RESET_FILTERS.Keys
    ensures forall k :: k in init ==> s[k] == init[k]
    ensures forall k :: k in RESET_FILTERS && k !in init ==> s[k] == Str("")
  {
    var defaults := map k | k in RESET_FILTERS :: OrBlank(Get(init, k));
    defaults + init
  }

  /** The `|| ''` fallbacks never decide anything: the spread that follows
      overrides every property `initialFilters` has, so the initial state is
      the blank record with `initialFilters` laid over it. */
  lemma InitialIsBlankOverridden(init: Filters)
    ensures InitialFilters(init) == RESET_FILTERS + init
  {
    var s := InitialFilters(init);
    var t := RESET_FILTERS + init;
    assert s.Keys == t.Keys;
    forall k | k in s
      ensures s[k] == t[k]
    {
      if k !in init {
        assert k in RESET_FILTERS;
      }
    }
  }

  /** With no initial filters the form starts from the reset record. */
  lemma InitialWithoutProps()
    ensures InitialFilters(map[]) == RESET_FILTERS
  {
    InitialIsBlankOverridden(map[]);
    assert RESET_FILTERS + map[] == RESET_FILTERS;
  }

  /* ---------------- handlers ---------------- */

  /** The record a handler leaves in state, and the record it passes to
      `onSubmit` (`None` when it does not call it). */
  datatype Outcome = Outcome(state: Filters, submitted: Option<Filters>)

  /** `handleChange(field, value)`: a new record with that one property set. */
  function HandleChange(s: Filters, field: string, value: JsVal): (r: Outcome)
    ensures r.submitted == None
    ensures r.state.Keys == s.Keys + {field}
    ensures r.state[field] == value
    ensures forall k :: k in s && k != field ==> r.state[k] == s[k]
  {
    Outcome(s[field := value], None)
  }

  /** `handleSubmit`: the current record is submitted and stays in state. */
  function HandleSubmit(s: Filters): (r: Outcome)
    ensures r.state == s
    ensures r.submitted == Some(s)
  {
    Outcome(s, Some(s))
  }

  /** `handleReset`: the blank record replaces the state, extra properties
      included, and that same record is submitted. */
  function HandleReset(s: Filters): (r: Outcome)
    ensures r.submitted == Some(r.state)
    ensures r.state.Keys == RESET_FILTERS.Keys
    ensures forall k :: k in r.state ==> r.state[k] == Str("")
  {
    Outcome(RESET_FILTERS, Some(RESET_FILTERS))
  }

  /** A later change of the same property overrides an earlier one. */
  lemma ChangeOverrides(s: Filters, field: string, v: JsVal, w: JsVal)
    ensures HandleChange(HandleChange(s, field, v).state, field, w) == HandleChange(s, field, w)
  {
    var once := HandleChange(s, field, w).state;
    var twice := HandleChange(HandleChange(s, field, v).state, field, w).state;
    assert once.Keys == twice.Keys;
    forall k | k in once
      ensures once[k] == twice[k]
    {
      if k != field {
        assert k in s;
      }
    }
  }

  /** A user action on the form. */
  datatype Event = Change(field: string, value: JsVal) | Submit | Reset

  function Handle(s: Filters, e: Event): Outcome
  {
    match e
    case Change(field, value) => HandleChange(s, field, value)
    case Submit => HandleSubmit(s)
    case Reset => HandleReset(s)
  }

  /** The final record and the records submitted, in order, after a sequence
      of user actions. */
  function Run(s: Filters, events: seq<Event>): (Filters, seq<Filters>)
    decreases |events|
  {
    if events == [] then (s, [])
    else
      var o := Handle(s, events[0]);
      var rest := Run(o.state, events[1..]);
      (rest.0, (if o.submitted.Some? then [o.submitted.value] else []) + rest.1)
  }

  /** The number of actions that submit. */
  function Requests(events: seq<Event>): (n: nat)
    ensures n <= |events|
    decreases |events|
  {
    if events == [] then 0
    else (if events[0].Change? then 0 else 1) + Requests(events[1..])
  }

  /** Once present, the six filters are never removed: a change only adds or
      overwrites, a submit keeps the record and a reset installs all six. */
  lemma {:induction false} RunKeepsFilters(s: Filters, events: seq<Event>)
    requires RESET_FILTERS.Keys <= s.Keys
    ensures RESET_FILTERS.Keys <= Run(s, events).0.Keys
    decreases |events|
  {
    if events != [] {
      RunKeepsFilters(Handle(s, events[0]).state, events[1..]);
    }
  }

  /** Every submit and every reset calls `onSubmit` exactly once; a change
      never does. */
  lemma {:induction false} RunSubmitCount(s: Filters, events: seq<Event>)
    ensures |Run(s, events).1| == Requests(events)
    decreases |events|
  {
    if events != [] {
      RunSubmitCount(Handle(s, events[0]).state, events[1..]);
    }
  }

  /** After a reset the state is the blank record and the last record
      submitted is that blank record, whatever happened before. */
  lemma {:induction false} RunEndingInReset(s: Filters, events: seq<Event>)
    requires events != [] && events[|events| - 1] == Reset
    ensures Run(s, events).0 == RESET_FILTERS
    ensures |Run(s, events).1| > 0
    ensures Run(s, events).1[|Run(s, events).1| - 1] == RESET_FILTERS
    decreases |events|
  {
    var rest := events[1..];
    if rest != [] {
      assert rest[|rest| - 1] == Reset;
      RunEndingInReset(Handle(s, events[0]).state, rest);
    }
  }

  /* ---------------- auto-submit on the debounced search ---------------- */

  /** `v.length`: a string's length, `undefined` on a number or boolean, and
      a `TypeError` on `null` or `undefined`. */
  function LengthOf(v: JsVal): (r: Result<JsVal, JsError>)
    ensures r.Failure? <==> v.Null? || v.Undefined?
    ensures r.Failure? ==> r.error.TypeError?
    ensures v.Str? ==> r == Success(Num(|v.s|))
    ensures v.Num? || v.Bool? ==> r == Success(Undefined)
  {
    match v
    case Str(s) => Success(Num(|s|))
    case Num(_) => Success(Undefined)
    case Bool(_) => Success(Undefined)
    case Null => Failure(TypeError("Cannot read properties of null (reading 'length')"))
    case Undefined => Failure(TypeError("Cannot read properties of undefined (reading 'length')"))
  }

  /** The effect's test `debounceVal.length !== 0 && !!debounceVal`. On a
      string it holds exactly when the string is non-empty; on a number or a
      boolean it is the value's truthiness. */
  function SearchGuard(debounced: JsVal): (r: Result<bool, JsError>)
    ensures r.Failure? <==> debounced.Null? || debounced.Undefined?
    ensures debounced.Str? ==> r == Success(debounced.s != "")
    ensures debounced.Num? || debounced.Bool? ==> r == Success(Truthy(debounced))
  {
    match LengthOf(debounced)
    case Failure(e) => Failure(e)
    case Success(len) => Success(len != Num(0) && Truthy(debounced))
  }

  /** One render of the form: its filter record and the value the debounce
      hook returned for `filters.search` in that render. */
  datatype Render = Render(filters: Filters, debounced: JsVal)

  /** The effect keyed on `[debounceVal]` runs after the first render and
      after every render whose debounced value differs from the previous one. */
  predicate EffectRuns(renders: seq<Render>, i: nat)
    requires i < |renders|
  {
    i == 0 || renders[i].debounced != renders[i - 1].debounced
  }

  /** The effect submits after render `i`. */
  predicate Fires(renders: seq<Render>, i: nat)
    requires i < |renders|
  {
    EffectRuns(renders, i) && SearchGuard(renders[i].debounced) == Success(true)
  }

  /** The records the effect submits over a sequence of renders, each the
      whole record of the render it ran after; a guard that throws ends the
      sequence with that error. */
  function AutoSubmissions(renders: seq<Render>): (r: Result<seq<Filters>, JsError>)
    ensures r.Success? ==> |r.value| <= |renders|
    decreases |renders|
  {
    if renders == [] then Success([])
    else
      var n := |renders| - 1;
      var prior := AutoSubmissions(renders[..n]);
      if prior.Failure? || !EffectRuns(renders, n) then prior
      else match SearchGuard(renders[n].debounced)
        case Failure(e) => Failure(e)
        case Success(fire) => Success(prior.value + (if fire then [renders[n].filters] else []))
  }

  /** While the debounced search is blank nothing is submitted. */
  lemma {:induction false} BlankSearchNeverSubmits(renders: seq<Render>)
    requires forall i :: 0 <= i < |renders| ==> renders[i].debounced == Str("")
    ensures AutoSubmissions(renders) == Success([])
    decreases |renders|
  {
    if renders != [] {
      var n := |renders| - 1;
      BlankSearchNeverSubmits(renders[..n]);
      assert SearchGuard(renders[n].debounced) == Success(false);
      var none: seq<Filters> := [];
      assert none + [] == none;
    }
  }

  /** While the debounced search stays the same the effect runs once only,
      after the first render, so at most one record is submitted. */
  lemma {:induction false} SteadySearchRunsOnce(renders: seq<Render>)
    requires |renders| > 0
    requires forall i :: 0 <= i < |renders| ==> renders[i].debounced == renders[0].debounced
    ensures AutoSubmissions(renders) == AutoSubmissions(renders[..1])
    ensures AutoSubmissions(renders).Success? ==> |AutoSubmissions(renders).value| <= 1
    decreases |renders|
  {
    var n := |renders| - 1;
    if n > 0 {
      assert renders[..n][..1] == renders[..1];
      SteadySearchRunsOnce(renders[..n]);
      assert !EffectRuns(renders, n);
    }
  }

  /** Every record submitted is the whole filter record of a render after
      which the effect ran with the guard true. */
  lemma {:induction false} SubmissionsComeFromFiringRenders(renders: seq<Render>)
    requires AutoSubmissions(renders).Success?
    ensures var subs := AutoSubmissions(renders).value;
      forall j :: 0 <= j < |subs| ==>
        exists i :: 0 <= i < |renders| && Fires(renders, i) && subs[j] == renders[i].filters
    decreases |renders|
  {
    if renders != [] {
      var n := |renders| - 1;
      var prefix := renders[..n];
      assert AutoSubmissions(prefix).Success?;
      SubmissionsComeFromFiringRenders(prefix);
      var subs := AutoSubmissions(renders).value;
      var prior := AutoSubmissions(prefix).value;
      assert forall j :: 0 <= j < |prior| ==>
        exists i :: 0 <= i < |prefix| && Fires(prefix, i) && prior[j] == prefix[i].filters;
      forall j | 0 <= j < |subs|
        ensures exists i :: 0 <= i < |renders| && Fires(renders, i) && subs[j] == renders[i].filters
      {
        if j < |prior| {
          var i :| 0 <= i < |prefix| && Fires(prefix, i) && prior[j] == prefix[i].filters;
          assert renders[i] == prefix[i];
          assert i > 0 ==> renders[i - 1] == prefix[i - 1];
          assert Fires(renders, i);
        } else {
          assert Fires(renders, n) && subs[j] == renders[n].filters;
        }
      }
    }
  }

  /** Conversely, a render after which the effect fires submits its record:
      it is the last submission so far. */
  lemma LastFiringRenderSubmits(renders: seq<Render>)
    requires |renders| > 0 && Fires(renders, |renders| - 1)
    requires AutoSubmissions(renders[..|renders| - 1]).Success?
    ensures AutoSubmissions(renders).Success?
    ensures var subs := AutoSubmissions(renders).value;
      |subs| > 0 && subs[|subs| - 1] == renders[|renders| - 1].filters
  {
  }

  /** The records of the renders from `lo` up to, not including, `hi` after
      which the effect fires, in render order. */
  function FiredBetween(renders: seq<Render>, lo: nat, hi: nat): seq<Filters>
    requires lo <= hi <= |renders|
    decreases hi - lo
  {
    if lo == hi then []
    else (if Fires(renders, lo) then [renders[lo].filters] else []) + FiredBetween(renders, lo + 1, hi)
  }

  lemma {:induction false} FiredBetweenSnoc(renders: seq<Render>, lo: nat, hi: nat)
    requires lo <= hi < |renders|
    ensures FiredBetween(renders, lo, hi + 1)
         == FiredBetween(renders, lo, hi) + (if Fires(renders, hi) then [renders[hi].filters] else [])
    decreases hi - lo
  {
    if lo < hi {
      var head := if Fires(renders, lo) then [renders[lo].filters] else [];
      var last := if Fires(renders, hi) then [renders[hi].filters] else [];
      FiredBetweenSnoc(renders, lo + 1, hi);
      calc {
        FiredBetween(renders, lo, hi + 1);
        head + FiredBetween(renders, lo + 1, hi + 1);
        head + (FiredBetween(renders, lo + 1, hi) + last);
        (head + FiredBetween(renders, lo + 1, hi)) + last;
        FiredBetween(renders, lo, hi) + last;
      }
    }
  }

  /** One more render extends the submissions by that render's record when
      the effect fires after it, and by nothing otherwise. */
  lemma AutoSubmissionsStep(renders: seq<Render>, k: nat, prior: seq<Filters>)
    requires 0 < k <= |renders|
    requires AutoSubmissions(renders[..k - 1]) == Success(prior)
    requires EffectRuns(renders, k - 1) ==> SearchGuard(renders[k - 1].debounced).Success?
    ensures AutoSubmissions(renders[..k])
         == Success(prior + (if Fires(renders, k - 1) then [renders[k - 1].filters] else []))
  {
    var pre := renders[..k];
    assert pre[..k - 1] == renders[..k - 1];
    assert pre[k - 1] == renders[k - 1];
    assert k > 1 ==> pre[k - 2] == renders[k - 2];
    assert EffectRuns(pre, k - 1) == EffectRuns(renders, k - 1);
    if !EffectRuns(renders, k - 1) {
      assert prior + [] == prior;
    }
  }

  lemma {:induction false} AutoSubmissionsUpTo(renders: seq<Render>, k: nat)
    requires k <= |renders|
    requires forall i :: 0 <= i < k && EffectRuns(renders, i) ==> SearchGuard(renders[i].debounced).Success?
    ensures AutoSubmissions(renders[..k]) == Success(FiredBetween(renders, 0, k))
    decreases k
  {
    if k > 0 {
      var prior := FiredBetween(renders, 0, k - 1);
      var last := if Fires(renders, k - 1) then [renders[k - 1].filters] else [];
      AutoSubmissionsUpTo(renders, k - 1);
      FiredBetweenSnoc(renders, 0, k - 1);
      assert FiredBetween(renders, 0, k) == prior + last;
      AutoSubmissionsStep(renders, k, prior);
      assert AutoSubmissions(renders[..k]) == Success(prior + last);
    }
  }

  /** When no render after which the effect runs has a `null` or `undefined`
      debounced value, the submissions are exactly the records of the renders
      after which the effect fires, one each, in render order. */
  lemma AutoSubmissionsInOrder(renders: seq<Render>)
    requires forall i :: 0 <= i < |renders| && EffectRuns(renders, i) ==> SearchGuard(renders[i].debounced).Success?
    ensures AutoSubmissions(renders) == Success(FiredBetween(renders, 0, |renders|))
  {
    AutoSubmissionsUpTo(renders, |renders|);
    assert renders[..|renders|] == renders;
  }

  /** The effect runs after render `i` and its guard throws. */
  predicate Throws(renders: seq<Render>, i: nat)
    requires i < |renders|
  {
    EffectRuns(renders, i) && SearchGuard(renders[i].debounced).Failure?
  }

  /** A render after which the guard throws ends a run that had not failed
      yet with that render's error. */
  lemma ThrowStep(renders: seq<Render>, k: nat, prior: seq<Filters>)
    requires 0 < k <= |renders| && Throws(renders, k - 1)
    requires AutoSubmissions(renders[..k - 1]) == Success(prior)
    ensures AutoSubmissions(renders[..k]) == Failure(SearchGuard(renders[k - 1].debounced).error)
  {
    var pre := renders[..k];
    assert pre[..k - 1] == renders[..k - 1];
    assert pre[k - 1] == renders[k - 1];
    assert k > 1 ==> pre[k - 2] == renders[k - 2];
    assert EffectRuns(pre, k - 1) == EffectRuns(renders, k - 1);
  }

  /** Once the run has failed, later renders keep the error. */
  lemma FailureStays(renders: seq<Render>, k: nat, e: JsError)
    requires 0 < k <= |renders|
    requires AutoSubmissions(renders[..k - 1]) == Failure(e)
    ensures AutoSubmissions(renders[..k]) == Failure(e)
  {
    assert renders[..k][..k - 1] == renders[..k - 1];
  }

  lemma {:induction false} ThrowsUpTo(renders: seq<Render>, i: nat, k: nat)
    requires i < k <= |renders| && Throws(renders, i)
    requires forall j :: 0 <= j < i && EffectRuns(renders, j) ==> SearchGuard(renders[j].debounced).Success?
    ensures AutoSubmissions(renders[..k]) == Failure(SearchGuard(renders[i].debounced).error)
    decreases k
  {
    if k == i + 1 {
      AutoSubmissionsUpTo(renders, i);
      ThrowStep(renders, k, FiredBetween(renders, 0, i));
    } else {
      ThrowsUpTo(renders, i, k - 1);
      FailureStays(renders, k, SearchGuard(renders[i].debounced).error);
    }
  }

  /** When the guard throws after some render that runs the effect, the
      sequence ends with the error of the first such render. */
  lemma FirstThrowEndsRun(renders: seq<Render>, i: nat)
    requires i < |renders| && Throws(renders, i)
    requires forall j :: 0 <= j < i && EffectRuns(renders, j) ==> SearchGuard(renders[j].debounced).Success?
    ensures AutoSubmissions(renders) == Failure(SearchGuard(renders[i].debounced).error)
  {
    ThrowsUpTo(renders, i, |renders|);
    assert renders[..|renders|] == renders;
  }

  /** The first render at or after `lo` after which the guard throws, given
      that render `j` is one and none before `lo` is. */
  function FirstThrow(renders: seq<Render>, lo: nat, j: nat): (i: nat)
    requires lo <= j < |renders| && Throws(renders, j)
    requires forall k :: 0 <= k < lo ==> !Throws(renders, k)
    ensures i <= j && Throws(renders, i)
    ensures forall k :: 0 <= k < i ==> !Throws(renders, k)
    decreases j - lo
  {
    if Throws(renders, lo) then lo else FirstThrow(renders, lo + 1, j)
  }

  /** The auto-submit fails exactly when the guard throws after some render
      that runs the effect: `debounceVal.length` on `null` or `undefined`. */
  lemma AutoSubmissionsFailIff(renders: seq<Render>)
    ensures AutoSubmissions(renders).Failure? <==> exists i :: 0 <= i < |renders| && Throws(renders, i)
  {
    if j :| 0 <= j < |renders| && Throws(renders, j) {
      var i := FirstThrow(renders, 0, j);
      assert forall k :: 0 <= k < i && EffectRuns(renders, k) ==> SearchGuard(renders[k].debounced).Success? by {
        forall k | 0 <= k < i && EffectRuns(renders, k)
          ensures SearchGuard(renders[k].debounced).Success?
        {
          assert !Throws(renders, k);
        }
      }
      FirstThrowEndsRun(renders, i);
    } else {
      forall k | 0 <= k < |renders| && EffectRuns(renders, k)
        ensures SearchGuard(renders[k].debounced).Success?
      {
        assert !Throws(renders, k);
      }
      AutoSubmissionsInOrder(renders);
    }
  }

  /* ---------------- CSV export ---------------- */

  /** One entry of the table's sorting state. */
  datatype SortEntry = SortEntry(id: string, desc: bool)

  /** The argument object of `reportsAPI.getCSVdata`. */
  datatype CsvQuery = CsvQuery(sortBy: string, sortOrder: string, filters: Filters, search: JsVal)

  /** The columns the export writes, in order. */
  const EXPORT_HEADERS: seq<string> :=
    ["id", "title", "status", "department", "priority", "createdAt", "updatedAt"]

  /** The request derived from the filters and the table's sorting: sorted by
      the first sorting entry, or newest first by creation date. */
  function ExportQuery(filters: Filters, sorting: seq<SortEntry>): (q: CsvQuery)
    ensures q.sortBy == (if sorting == [] then "createdAt" else sorting[0].id)
    ensures q.sortOrder == "desc" <==> sorting == [] || sorting[0].desc
    ensures q.sortOrder == "asc" <==> sorting != [] && !sorting[0].desc
    ensures q.filters == filters
    ensures q.search == Get(filters, "search")
  {
    var sortBy := if |sorting| > 0 then sorting[0].id else "createdAt";
    var sortOrder := if |sorting| > 0 then (if sorting[0].desc then "desc" else "asc") else "desc";
    CsvQuery(sortBy, sortOrder, filters, Get(filters, "search"))
  }

  /** How the awaited fetch settles: rejected, or resolved with a value that
      is an array of records (`Some`) or is not an array (`None`). */
  datatype Fetch = Rejected(reason: string) | Resolved(data: Option<seq<Row>>)

  /** What `handleCSV` does: the query it sends, and the export it runs once
      the fetch resolves (`None` when the fetch rejects and the export is
      never reached). */
  datatype CsvAction = CsvAction(query: CsvQuery, run: Option<ExportRun>)

  function HandleCsv(filters: Filters, sorting: seq<SortEntry>, response: Fetch, isoNow: string,
                     delivered: bool): (r: CsvAction)
    ensures r.query == ExportQuery(filters, sorting)
    ensures r.run.Some? <==> response.Resolved?
    ensures response.Resolved? ==>
      r.run.value == Exporting(response.data, "reports", Some(EXPORT_HEADERS), isoNow, delivered)
  {
    var query := ExportQuery(filters, sorting);
    match response
    case Rejected(_) => CsvAction(query, None)
    case Resolved(data) => CsvAction(query, Some(Exporting(data, "reports", Some(EXPORT_HEADERS), isoNow, delivered)))
  }

  /** No export header needs quoting. */
  lemma ExportHeadersPlain()
    ensures forall i :: 0 <= i < |EXPORT_HEADERS| ==> !NeedsQuote(EXPORT_HEADERS[i])
  {
    forall i | 0 <= i < |EXPORT_HEADERS|
      ensures !NeedsQuote(EXPORT_HEADERS[i])
    {
      NeedsQuoteIffTrigger(EXPORT_HEADERS[i]);
    }
  }

  /** When the fetch resolves with at least one record, exactly one file
      `reports-<date>.csv` is downloaded, and reading it back gives the
      seven export columns as the header record followed by each record's
      values in column order. */
  lemma {:induction false} ExportedFileReadsBack(filters: Filters, sorting: seq<SortEntry>,
                                                 rows: seq<Row>, isoNow: string, delivered: bool)
    requires |rows| > 0
    ensures var r := HandleCsv(filters, sorting, Resolved(Some(rows)), isoNow, delivered);
      var filename := ExportFilename("reports", isoNow);
      && r.run.Some?
      && |r.run.value.effects| == 1
      && r.run.value.effects[0].Download?
      && r.run.value.effects[0].filename == filename
      && r.run.value.effects[0].mimeType == "text/csv"
      && CsvReader.Parse(r.run.value.effects[0].content)
         == [EXPORT_HEADERS] + CsvReader.ValueTable(rows, EXPORT_HEADERS)
      && (r.run.value.outcome == Exported(filename) <==> delivered)
  {
    ExportDownloadsOnce(rows, "reports", Some(EXPORT_HEADERS), isoNow, delivered);
    ExportHeadersPlain();
    CsvReader.CsvRoundTrip(rows, EXPORT_HEADERS);
  }
}

=== FILE: js_values.dfy ===
/** The slice of JavaScript value semantics the CSV export and the filter form
    rely on: primitive values, `String(v)`, truthiness, plain objects as
    ordered key/value lists, `Array.prototype.join` and `s.split(c)[0]`. */
module JsValues {

  /** A primitive JavaScript value. Numbers are restricted to integers. */
  datatype JsVal = Str(s: string) | Num(n: int) | Bool(b: bool) | Null | Undefined

  /** An exception thrown by the JavaScript engine. */
  datatype JsError = TypeError(message: string) | RangeError(message: string)

  function DigitChar(d: nat): (c: char)
    requires d < 10
    ensures '0' <= c <= '9'
  {
    ('0' as int + d) as char
  }

  /** Decimal digits of a natural number, as `String` prints it. */
  function Decimal(n: nat): (r: string)
    ensures |r| >= 1
    ensures forall i :: 0 <= i < |r| ==> '0' <= r[i] <= '9'
    ensures r[0] == '0' ==> n == 0
    decreases n
  {
    if n < 10 then [DigitChar(n)] else Decimal(n / 10) + [DigitChar(n % 10)]
  }

  /** The value of one decimal digit character. */
  function DigitValue(c: char): nat
  {
    if '0' <= c <= '9' then c as int - '0' as int else 0
  }

  /** The number a string of decimal digits spells, read left to right;
      defined independently of `Decimal`. */
  function DigitsValue(d: string): nat
    decreases |d|
  {
    if d == [] then 0 else 10 * DigitsValue(d[..|d| - 1]) + DigitValue(d[|d| - 1])
  }

  /** `Decimal(n)` spells `n`. */
  lemma {:induction false} DecimalValue(n: nat)
    ensures DigitsValue(Decimal(n)) == n
    decreases n
  {
    if n >= 10 {
      var d := Decimal(n);
      assert d[..|d| - 1] == Decimal(n / 10);
      DecimalValue(n / 10);
    }
  }

  /** `String(n)` for an integer: a `-` when it is negative, then the
      decimal digits of its magnitude, with no leading zero. */
  function NumberText(n: int): (r: string)
    ensures |r| > 0 && (r[0] == '-' <==> n < 0)
    ensures forall i :: (if n < 0 then 1 else 0) <= i < |r| ==> '0' <= r[i] <= '9'
    ensures DigitsValue(r[(if n < 0 then 1 else 0)..]) == (if n < 0 then -n else n)
    ensures r[if n < 0 then 1 else 0] == '0' ==> n == 0
  {
    if n < 0 then
      var d := Decimal(-n);
      DecimalValue(-n);
      assert ("-" + d)[1..] == d;
      "-" + d
    else
      DecimalValue(n);
      assert Decimal(n)[0..] == Decimal(n);
      Decimal(n)
  }

  /** `String(v)`: the string form of a value. */
  function ToStr(v: JsVal): (r: string)
    ensures v.Str? ==> r == v.s
    ensures v.Num? ==> |r| > 0 && (r[0] == '-' <==> v.n < 0)
    ensures v.Num? ==> forall i :: (if v.n < 0 then 1 else 0) <= i < |r| ==> '0' <= r[i] <= '9'
    ensures v.Num? ==> DigitsValue(r[(if v.n < 0 then 1 else 0)..]) == (if v.n < 0 then -v.n else v.n)
    ensures v.Num? ==> (r[if v.n < 0 then 1 else 0] == '0' ==> v.n == 0)
    ensures v.Bool? ==> r == (if v.b then "true" else "false")
    ensures v.Null? ==> r == "null"
    ensures v.Undefined? ==> r == "undefined"
  {
    match v
    case Str(s) => s
    case Num(n) => NumberText(n)
    case Bool(b) => if b then "true" else "false"
    case Null => "null"
    case Undefined => "undefined"
  }

  /** JavaScript's ToBoolean: what `!!v` and `v || d` test. */
  predicate Truthy(v: JsVal)
  {
    match v
    case Str(s) => s != ""
    case Num(n) => n != 0
    case Bool(b) => b
    case Null => false
    case Undefined => false
  }

  predicate UniqueKeys(fields: seq<(string, JsVal)>)
  {
    forall i, j :: 0 <= i < j < |fields| ==> fields[i].0 != fields[j].0
  }

  /** A plain object: its own properties in `Object.keys` order. A key occurs
      at most once. */
  type Row = fields: seq<(string, JsVal)> | UniqueKeys(fields) witness []

  /** `row[key]` looking from position `i` on. */
  function LookupFrom(row: Row, key: string, i: nat): (v: JsVal)
    requires i <= |row|
    ensures forall j :: i <= j < |row| && row[j].0 == key ==> v == row[j].1
    ensures (forall j :: i <= j < |row| ==> row[j].0 != key) ==> v == Undefined
    decreases |row| - i
  {
    if i == |row| then Undefined
    else if row[i].0 == key then row[i].1
    else LookupFrom(row, key, i + 1)
  }

  /** `row[key]`: the value bound to `key`, or `undefined` when it is absent. */
  function Lookup(row: Row, key: string): (v: JsVal)
    ensures forall j :: 0 <= j < |row| && row[j].0 == key ==> v == row[j].1
    ensures (forall j :: 0 <= j < |row| ==> row[j].0 != key) ==> v == Undefined
  {
    LookupFrom(row, key, 0)
  }

  /** `Object.keys(row)`. */
  function Keys(row: Row): (ks: seq<string>)
    ensures |ks| == |row|
    ensures forall i :: 0 <= i < |row| ==> ks[i] == row[i].0
    ensures forall i, j :: 0 <= i < j < |ks| ==> ks[i] != ks[j]
  {
    seq(|row|, i requires 0 <= i < |row| => row[i].0)
  }

  /** `parts.join(sep)`. */
  function Join(parts: seq<string>, sep: string): (r: string)
    ensures |parts| == 0 ==> r == ""
    ensures |parts| == 1 ==> r == parts[0]
    decreases |parts|
  {
    if |parts| == 0 then ""
    else if |parts| == 1 then parts[0]
    else parts[0] + sep + Join(parts[1..], sep)
  }

  /** The joined text starts with the first part and ends with the last one,
      which a separator precedes when there is more than one part. */
  lemma {:induction false} JoinEnds(parts: seq<string>, sep: string)
    requires |parts| > 0
    ensures var r := Join(parts, sep);
      var last := parts[|parts| - 1];
      && parts[0] <= r
      && |r| >= |last|
      && r[|r| - |last|..] == last
      && (|parts| > 1 ==> |r| >= |sep| + |last| && r[|r| - |sep| - |last|..|r| - |last|] == sep)
    decreases |parts|
  {
    if |parts| > 1 {
      var rest := Join(parts[1..], sep);
      JoinEnds(parts[1..], sep);
      assert parts[1..][|parts[1..]| - 1] == parts[|parts| - 1];
      var r := Join(parts, sep);
      assert r == parts[0] + sep + rest;
      if |parts| == 2 {
        assert rest == parts[1];
      }
    }
  }

  /** `s.split(c)[0]`: everything before the first `c`, or all of `s`. */
  function TakeUntil(s: string, c: char): (r: string)
    ensures r <= s
    ensures c !in r
    ensures |r| < |s| ==> s[|r|] == c
    decreases |s|
  {
    if s == [] then []
    else if s[0] == c then []
    else [s[0]] + TakeUntil(s[1..], c)
  }

  /** When the first `c` in `s` is at position `k`, `s.split(c)[0]` is
      exactly the first `k` characters. */
  lemma {:induction false} TakeUntilAt(s: string, c: char, k: nat)
    requires k < |s| && s[k] == c
    requires c !in s[..k]
    ensures TakeUntil(s, c) == s[..k]
  {
  }
}

=== FILE: wrappers.dfy ===
/** Optional values and results with an error value, used for JavaScript's
    `null`/`undefined` arguments and for thrown exceptions. */
module Wrappers {

  datatype Option<+T> = None | Some(value: T)

  datatype Result<+T, +E> = Success(value: T) | Failure(error: E)
}
